=== FILE: README.md ===
# Halo-exchange bookkeeping of an MPI stencil solver, modelled in Dafny

The solver relaxes a 2-D field that is split over a square grid of MPI
processes. Each process owns one square tile. Every iteration, each tile
exchanges its boundary lines with its up to four neighbours. It then flips
its double buffer. This project models the sequential bookkeeping around
that exchange and proves its properties:

- **Topology** (`ClusterManager`): checks that the node count is a perfect
  square. Derives the node's row and column and its four neighbour ids,
  with the sentinel `N_INVALID = -1` at the grid edges.
- **Request slots** (`Comms`): a pool of `RQ_COUNT = 8` request slots.
  `exchange` fills two slots, and `reset` clears them all.
- **Tile workspace** (`Workspace`): flat `front`/`back` buffers and
  per-direction edge lines. The edge lines exist only towards existing
  neighbours. Covers `set_elf`, `get_elb` (with its corner error),
  `copyInnerEdgesToBuffers`, `swapBuffers` and the `swap` sequence.
- **Whole-cluster iteration**: every tile runs `swap`, with idealised
  delivery of each neighbour's edge line. This is used to state the window
  property: a read one step outside a tile sees the neighbour's adjacent
  cell.
- **Dump sampling** (`FileDumper`): the stride `edgeLen / linearDensity`
  and the index sequence of `loop`.
- **Timer arithmetic** (`Timer`): `conv` and `stop`.

Cell values have an opaque type `T`: the core only stores and copies them.

Files, one module each: `wrappers.dfy` (Option/Result), `layout.dfy`
(row-major layout shared by node ids and tile cells), `topology.dfy`,
`exchange.dfy`, `workspace.dfy` (module `Tiles`), `halo.dfy`, `dump.dfy`,
`timer.dfy`.

## Where the code and its documentation disagree (the model follows the code)

- The comment above `Workspace` says cells are indexed from 1 to the tile
  side. The code is different:
  - the interior is `0 .. innerLength-1`, stored at `x*innerLength + y`;
  - the out-of-tile coordinates are `-1` and `innerLength+1`;
  - the edge lines are taken at `0` and `innerLength-1`.

  So coordinate `innerLength` is neither interior nor virtual.
  `Tiles.FarCoordinateUnhandled` states what the code does with it: at
  x = `innerLength` with an interior y the read runs past `back`, and at
  y = `innerLength`, for x below `innerLength-1`, it reads the first cell of
  the next row. The precondition of `Tiles.GetElb` is exactly the set of
  coordinates the code answers without leaving a buffer.
- `get_elb`'s comments call `y == -1` the top edge. The code reads
  `outerEdge[BOTTOM]` there, and `outerEdge[TOP]` at `y == innerLength+1`.
  The model does the same, and the snapshot layout matches it:
  - TOP takes `(i, innerLength-1)`;
  - BOTTOM takes `(i, 0)`;
  - LEFT takes `(0, i)`;
  - RIGHT takes `(innerLength-1, i)`.
- The comment on `Timer::conv` says microseconds. The arithmetic gives
  nanoseconds.
- The error message of the node-count check says "power of some integer".
  The test is for a perfect square.

## Model

| member | source | states |
|---|---|---|
| Layout.RowMajorRoundTrip | src/parallel.cpp:36-37 | every grid position (row, column) with both below the side gets an id below side², from which `id / side` and `id % side` give back the row and the column |
| Layout.PositionRoundTrip | src/parallel.cpp:36-37 | every id below side² has row and column in range, and placing them back gives the id, so ids cover the whole grid |
| Layout.RowMajorInjective | src/parallel.cpp:279-281 | two distinct positions of the square never share a flat index (distinct node ids, distinct buffer slots) |
| Topology.Isqrt | src/parallel.cpp:25 | the exact counterpart of `std::sqrt` truncated to an integer: the largest root whose square does not exceed the count |
| Topology.SquareTestExact | src/parallel.cpp:25-26 | squaring the truncated root gives the count back exactly when the count is a perfect square |
| Topology.DirectionsInEnumOrder | src/parallel.cpp:11-16 | the direction list has four entries, each direction at the position of its enum value, so a counter over 0..3 visits LEFT, TOP, RIGHT, BOTTOM in that order |
| Topology.NewClusterManager | src/parallel.cpp:20-42 | construction fails with the incorrect-node-count error exactly when the count is not a perfect square; otherwise the node sits at its own grid position and its neighbour table holds the geometric neighbours |
| Topology.InitNeighboursAreGridNeighbours | src/parallel.cpp:81-92 | the id arithmetic of `initNeighbours` gives, in every direction, the sentinel exactly when the step leaves the grid, and otherwise the id of the adjacent cell |
| Topology.NeighbourSymmetric | src/parallel.cpp:82-92 | every stored neighbour is a node id of the cluster, and b is a's neighbour in a direction exactly when a is b's neighbour in the opposite direction |
| Topology.NeighbourCountByPosition | src/parallel.cpp:82-92 | a node loses one neighbour per grid edge it lies on: corners keep two, other edge nodes three, inner nodes four, and the single node of a 1×1 grid none |
| Exchange.Reset | src/parallel.cpp:124-129 | after `reset` every slot holds the null request and the counter is zero |
| Exchange.NewComms | src/parallel.cpp:104-106 | a new channel starts reset for lines of the given length |
| Exchange.Post | src/parallel.cpp:108-113 | `exchange` needs two free slots in the pool; it puts the send to the target in the next slot and the receive in the one after, advances the counter by two and leaves earlier slots alone |
| Exchange.Outstanding | src/parallel.cpp:115-116 | the number of requests `wait` waits for is the number of non-null slots, at most RQ_COUNT |
| Tiles.Allocate | src/parallel.cpp:249-265 | both main buffers hold side² cells; inner and outer edge lines exist in a direction exactly when the neighbour id there is not the sentinel, each one line long |
| Tiles.SetElf | src/parallel.cpp:155-158 | the write changes only the addressed front cell; back, edges and every other front cell stay as they were |
| Tiles.GetElb | src/parallel.cpp:160-211 | a read fails with the corner error exactly when both coordinates are out of tile; a read one step outside on one axis gives the outer edge value of that side if the neighbour exists and the boundary constant otherwise; any other read gives the back buffer's cell |
| Tiles.GetLength | src/parallel.cpp:213 | the reported length is the tile side: every cell inside it can be read, and the cell (length, 0) just past it along x cannot |
| Tiles.EdgeCellInterior | src/parallel.cpp:297-300 | the cells each side's snapshot copies are interior cells with slots in the buffer |
| Tiles.EdgeLine | src/parallel.cpp:290-295 | a snapshot line is one tile side long and its i-th value is the i-th cell along the side facing that direction |
| Tiles.CopyEdge | src/parallel.cpp:290-295 | one expansion of the copy macro: the inner edge facing a direction becomes that side of `front` when the neighbour there exists and is otherwise kept; the other three inner edges and all other fields are untouched |
| Tiles.Receive | src/parallel.cpp:226 | after `wait`, the outer edge facing each existing neighbour holds the line received from it; the buffers, the inner edges and the topology are untouched |
| Tiles.CopyInnerEdgesToBuffers | src/parallel.cpp:289-303 | every existing neighbour's inner edge becomes the facing side of `front`; the edges of missing neighbours, both main buffers and the outer edges are untouched |
| Tiles.SwapBuffers | src/parallel.cpp:283-287 | the written buffer becomes the read buffer and vice versa, nothing else changes |
| Tiles.SwapBuffersInvolution | src/parallel.cpp:283-287 | flipping the buffers twice gives back the same workspace |
| Tiles.PresentMembers | src/parallel.cpp:220-225 | the loop over the four directions exchanges in a direction exactly when the neighbour id there is not the sentinel |
| Tiles.PostNext | src/parallel.cpp:221-224 | one pass of the loop body posts the pair for the current direction when it has a neighbour and otherwise leaves the channel alone, so the pairs stay in enum order and within the pool |
| Tiles.PostAll | src/parallel.cpp:219-225 | the channel keeps its line length; after the loop, slot pairs 2k and 2k+1 hold the send of the snapshot towards the k-th existing neighbour and the receive into the outer edge facing it, and the counter is twice the number of pairs |
| Tiles.PresentCount | src/parallel.cpp:220-225 | visiting the four directions in enum order meets each existing neighbour once, so the visits number the neighbour count |
| Tiles.Swap | src/parallel.cpp:215-229 | after the posting loop of `swap`, before `wait`, the channel holds exactly one send/receive pair per existing neighbour, in enum order, sending the snapshot of the side facing it; the counter is twice the neighbour count and never exceeds RQ_COUNT; the channel keeps its line length, so it can be passed to the next iteration's `swap`; the workspace is snapshotted, filled with the received lines and flipped |
| Tiles.WriteInvisibleBeforeSwap | src/parallel.cpp:155-211 | no read, at any coordinate, can tell that a write happened before the buffers are swapped |
| Tiles.WriteVisibleAfterSwap | src/parallel.cpp:283-287 | after the swap, reading the written cell gives the written value, and reading any other interior cell gives what it held in `front` |
| Tiles.FarCoordinateUnhandled | src/parallel.cpp:176-208 | coordinate `innerLength` is not handled: x = `innerLength` with any interior y cannot be read in bounds, and y = `innerLength`, for x below `innerLength-1`, reads the first cell of the next row |
| Halo.NeighbourLink | src/parallel.cpp:82-92 | in a cluster, a tile's neighbour is a tile of the cluster that has the tile as its neighbour in the opposite direction |
| Halo.LineFrom | src/parallel.cpp:223 | the line a neighbour sends towards a tile exists and is one tile side long |
| Halo.Incoming | src/parallel.cpp:108-110 | under the delivery assumption, a tile receives a full line exactly in the directions where it has a neighbour, namely that neighbour's line towards it |
| Halo.SnapshotAll | src/parallel.cpp:217 | snapshotting every tile keeps a well-formed cluster |
| Halo.SynchronizeAll | src/parallel.cpp:215-229 | running `swap` on every tile of a well-formed cluster, with idealised delivery, leaves a well-formed cluster of the same grid and tile side |
| Halo.ExchangeRoundTrip | src/parallel.cpp:217-226 | after one iteration a tile's outer edge towards a neighbour equals, value for value and in order, the side of the neighbour's front buffer that faced it |
| Halo.SynchronizedTile | src/parallel.cpp:228 | after the iteration a tile reads the values it had written in `front`, and keeps its side, neighbours and boundary constant |
| Tiles.OutsideIsSideRead | src/parallel.cpp:161-205 | a read one step outside a side, within the side's length, is resolvable, never a corner, and gives that side's value |
| Tiles.SeamRead | src/parallel.cpp:160-211 | when a tile's outer edge towards a direction holds the facing side of another tile's back buffer, a read one step past that side equals the other tile's read of its adjacent boundary cell |
| Halo.ReadAcrossSeam | src/parallel.cpp:215-229 | after the iteration, a read one step outside a tile equals the neighbour's read of its adjacent boundary cell; past a side without a neighbour it is the boundary constant |
| Halo.UniformFieldExchange | src/parallel.cpp:215-229 | if every tile's front holds one value everywhere, after the iteration every read past a side sees that value, or the boundary constant where there is no neighbour |
| Halo.UniformRead | src/parallel.cpp:206-209 | a tile whose back buffer holds one value everywhere reads that value at every cell along each of its sides |
| Dump.CDiv | src/shared.h:84 | the truncating quotient's magnitude is the number of whole divisors in the dividend, and it is positive only for operands of the same sign; it is non-negative when the operands agree in sign (or the dividend is 0) and non-positive when they differ |
| Dump.DumpStride | src/shared.h:83-86 | the stride is accepted exactly when the density does not exceed the side (same signs); an accepted stride is at least 1 and is the largest that fits `linearDensity` times into the side |
| Dump.DefaultDensityStride | src/shared.h:78-86 | at the default density of 25 the stride is accepted exactly when the side has at least 25 cells, and it is then the side divided by 25 |
| Dump.LoopIndices | src/shared.h:132-146 | the calls `loop` makes for a non-negative limit: at least one, the first with 0 when the limit is positive (with -1 when it is 0), and the last always with limit-1 |
| Dump.LoopFromShape | src/shared.h:132-146 | from counter i, `loop` passes i, i+step, … while below the limit and then the limit minus one, and makes the least number of steps that reaches the limit |
| Dump.LoopStartAndBounds | src/shared.h:132-146 | the first index passed is 0 and every index passed is in [0, limit) |
| Dump.LoopEndAndOrder | src/shared.h:134-144 | the last index passed is limit-1; before it come exactly 0, step, 2·step, …, strictly increasing |
| Dump.LoopCount | src/shared.h:136-145 | the callback runs ceil(limit/step) + 1 times |
| Dump.LastAmongMultiples | src/shared.h:136-145 | limit-1 is among the stride multiples exactly when step divides it |
| Dump.LastVisitedTwice | src/shared.h:136-145 | limit-1 is passed twice exactly when it is a multiple of the step, and once otherwise |
| Dump.Loop | src/shared.h:132-146 | the flag-controlled while loop calls back with exactly the indices of the sequence description, starting at 0 and ending at limit-1 |
| Timing.Conv | src/shared.h:192-197 | on a normalised reading the nanosecond count loses nothing: its quotient and remainder by 10⁹ are the seconds and the nanoseconds |
| Timing.ConvMonotone | src/shared.h:195-197 | nanosecond counts of normalised readings compare as the readings do chronologically, and are equal only for equal readings |
| Timing.NewTimer | src/shared.h:160-165 | a new timer's reading converts to zero |
| Timing.Start | src/shared.h:167-169 | after `start`, every later `stop` measures from the given reading, whatever the timer held before |
| Timing.StartThenStop | src/shared.h:167-181 | `start` at one reading then `stop` at another gives the difference of their nanosecond counts; for normalised readings it is non-negative exactly when the second is not earlier, and zero exactly when they are equal |
| Timing.Stop | src/shared.h:171-181 | the elapsed count plus the start's count is the end's count; for normalised readings it is non-negative exactly when the end is not earlier, and zero exactly when the readings coincide |

## Left out

- MPI start-up and shut-down (`MPI_Init`, `MPI_Finalize`, `MPI_Comm_rank`,
  `MPI_Comm_size`): foreign calls. The rank and size are parameters of
  `Topology.NewClusterManager`. Its requirement `nodeId < nodeCount` is what
  the MPI runtime guarantees.
- The transfers of `MPI_Isend`/`MPI_Irecv` and the `Comms::wait` loop over
  `MPI_Waitsome`: foreign, distributed concurrency. What `wait` leaves in
  the outer edges is the parameter `incoming` of `Tiles.Swap`.
- Tiles.Swap: `wait` releases every completed request and sets its slot to
  the null request, while the counter keeps its value. The model returns the
  channel as the posting loop leaves it, before `wait`.
- Halo.Incoming: whole-cluster delivery is an assumption. It says every
  posted receive is filled by the neighbour it faces. The code receives with
  `MPI_ANY_SOURCE`/`MPI_ANY_TAG` and does not itself ensure this matching.
- Diagnostic output (`err_log`, the neighbour and position lines, the
  resolution line of `Timer`): I/O.
- `parse_cli`: a thin wrapper over `getopt` and `stoull`.
- The file writing of `dumpBackbuffer`, its nested use of `loop`, and the
  coordinate mapping `vr_x`/`vr_y`: I/O and floating point.
- `f` and `equation`: floating-point numerics.
- `clock_getres`/`clock_gettime`: clock calls. The readings are parameters
  of `Timing.Start` and `Timing.Stop`.
- `freeBuffers`, `new`/`delete` and pointer lifetime: buffers are sequences.
  The indeterminate contents of freshly allocated arrays are one
  caller-supplied value (`fill` in `Tiles.Allocate`).
- `main`: a driver that only constructs the objects.
- Topology.Isqrt: `std::sqrt` on a double is taken as exact. Truncating it
  to `long` gives the integer square root for every `int` node count.
- Dump.DumpStride: models `assert(step > 0)` as enabled. A build with
  `NDEBUG` would skip the check.
- Dump.LoopFrom: requires step >= 1, the case `assert(step > 0)` guards.
  Without that check (an `NDEBUG` build with a tile side shorter than the
  density), a step of 0 leaves the counter at 0 and `loop` calls `f(0)`
  forever; a negative step wraps the `size_t` counter, so the calls are
  `f(0)` and then `f(limit-1)`. Neither behaviour is modelled.
- Dump.LoopFrom: does not model the `size_t` counter wrapping around. With a
  positive limit and step the counter never comes near the top of its range.
- Dump.LoopFrom and Dump.LoopIndices: cover non-negative limits only. For a
  negative limit the C++ compares the `size_t` counter with the limit
  converted to unsigned, so `loop` would keep calling back for about
  2^64/step iterations; unbounded integers do not model that. The one caller
  passes a tile side.
- Dump.DumpStride: requires a non-zero density. A zero density is a C++
  division by zero (undefined behaviour), which the model does not describe.
- Timing.Conv: does not model 64-bit wrap-around of `Duration`. That would
  need a reading more than 292 years from the clock's origin.
- Tiles.GetElb and Tiles.SetElf: do not model `long long` overflow of
  `x*innerLength + y`. Coordinates are unbounded integers.

=== FILE: dump.dfy ===
/**
 * The sampling of a tile for a snapshot dump: the stride derived from the
 * tile side and the requested density, and the index sequence `loop` feeds
 * to its callback. The callback's work (formatting and writing a line) is
 * not modelled; the indices it receives are.
 */
module Dump {
  import opened Wrappers
  import opened Layout

  /** Default number of samples along one tile side. */
  const DUMP_SPATIAL_FREQUENCY: int := 25

  function Abs(a: int): nat {
    if a < 0 then -a else a
  }

  /** Integer division as C++ computes it: the quotient truncated toward zero. */
  function CDiv(a: int, b: int): (q: int)
    requires b != 0
    ensures Abs(q) * Abs(b) <= Abs(a) < (Abs(q) + 1) * Abs(b)
    ensures q > 0 ==> (a > 0) == (b > 0)
    ensures (a >= 0 && b > 0) || (a <= 0 && b < 0) ==> q >= 0
    ensures (a >= 0 && b < 0) || (a <= 0 && b > 0) ==> q <= 0
  {
    var m := Abs(a) / Abs(b);
    DivBounds(Abs(a), Abs(b));
    if (a >= 0) == (b > 0) then m else -m
  }

  /** The failed `assert(step > 0)`. */
  datatype Error = StepNotPositive

  /**
   * The stride of `dumpBackbuffer`: `edgeLen / linearDensity`, which must be
   * positive. It is positive exactly when the density does not exceed the
   * side (for the usual positive arguments), and it is then the largest
   * stride that fits `linearDensity` times into the side.
   */
  function DumpStride(edgeLen: int, linearDensity: int): (r: Result<int, Error>)
    requires linearDensity != 0
    ensures r.Success? <==> (0 < linearDensity <= edgeLen || edgeLen <= linearDensity < 0)
    ensures r.Success? ==> r.value >= 1
    ensures r.Success? ==> r.value * Abs(linearDensity) <= Abs(edgeLen) < (r.value + 1) * Abs(linearDensity)
  {
    var step := CDiv(edgeLen, linearDensity);
    if step > 0 then Success(step) else Failure(StepNotPositive)
  }

  /**
   * At the default density of 25 samples per side, the stride is accepted
   * exactly when the side has at least 25 cells, and it is then the side
   * divided by 25.
   */
  lemma DefaultDensityStride(edgeLen: int)
    ensures DumpStride(edgeLen, DUMP_SPATIAL_FREQUENCY).Success? <==> edgeLen >= 25
    ensures edgeLen >= 25 ==> DumpStride(edgeLen, DUMP_SPATIAL_FREQUENCY).value == edgeLen / 25
  {
    if edgeLen >= 25 {
      var q := DumpStride(edgeLen, DUMP_SPATIAL_FREQUENCY).value;
      DivModUnique(edgeLen, 25, q, edgeLen - q * 25);
    }
  }

  /**
   * The indices `loop` passes to its callback, from the point where its
   * counter is `i`: the counter itself while it is below the limit, and the
   * final call always with `limit-1`. Its contract is `LoopFromShape`.
   */
  function LoopFrom(limit: int, step: int, i: int): seq<int>
    requires limit >= 0 && step >= 1
    decreases if i < limit then limit - i else 0
  {
    if i >= limit then [limit - 1]
    else [i] + LoopFrom(limit, step, i + step)
  }

  /**
   * The indices `loop(limit, step, f)` passes to `f`, in call order: it
   * starts at 0 for a positive limit, and a limit of 0 yields the single call `f(-1)`.
   */
  function LoopIndices(limit: int, step: int): (r: seq<int>)
    requires limit >= 0 && step >= 1
    ensures |r| >= 1 && r[0] == (if limit > 0 then 0 else -1) && r[|r| - 1] == limit - 1
  {
    LoopFromShape(limit, step, 0);
    LoopFrom(limit, step, 0)
  }

  /**
   * The shape of the sequence from counter `i`: multiples of `step` past `i`
   * while they stay below `limit`, then one final `limit-1`; the number of
   * multiples is the least that reaches `limit`.
   */
  lemma {:induction false} LoopFromShape(limit: int, step: int, i: int)
    requires limit >= 0 && step >= 1 && 0 <= i
    ensures var r := LoopFrom(limit, step, i);
            && |r| >= 1
            && r[|r| - 1] == limit - 1
            && (forall k :: 0 <= k < |r| - 1 ==> r[k] == i + k * step && r[k] < limit)
            && (|r| == 1 <==> i >= limit)
            && (i < limit ==> i + (|r| - 2) * step < limit <= i + (|r| - 1) * step)
    decreases if i < limit then limit - i else 0
  {
    if i < limit {
      LoopFromShape(limit, step, i + step);
      var r := LoopFrom(limit, step, i);
      var t := LoopFrom(limit, step, i + step);
      assert r == [i] + t;
      forall k | 1 <= k < |r| - 1
        ensures r[k] == i + k * step
      {
        assert r[k] == t[k - 1];
        assert i + step + (k - 1) * step == i + k * step;
      }
      assert i + step + (|t| - 1) * step == i + (|r| - 1) * step;
      assert i + step + (|t| - 2) * step == i + (|r| - 2) * step;
    }
  }

  /** The first index is 0 and every index is a valid position along the side. */
  lemma LoopStartAndBounds(limit: int, step: int)
    requires limit >= 1 && step >= 1
    ensures var r := LoopIndices(limit, step);
            |r| >= 2 && r[0] == 0 && forall k :: 0 <= k < |r| ==> 0 <= r[k] < limit
  {
    LoopFromShape(limit, step, 0);
    var r := LoopIndices(limit, step);
    forall k | 0 <= k < |r| - 1
      ensures 0 <= r[k]
    {
      assert r[k] == k * step;
    }
  }

  /**
   * The last index is always `limit-1`; before it come 0, step, 2*step, …
   * strictly increasing and all below `limit`.
   */
  lemma LoopEndAndOrder(limit: int, step: int)
    requires limit >= 1 && step >= 1
    ensures var r := LoopIndices(limit, step);
            && |r| >= 2
            && r[|r| - 1] == limit - 1
            && (forall k :: 0 <= k < |r| - 1 ==> r[k] == k * step)
            && (forall j, k :: 0 <= j < k < |r| - 1 ==> r[j] < r[k])
            && r[|r| - 2] <= r[|r| - 1]
  {
    LoopFromShape(limit, step, 0);
    var r := LoopIndices(limit, step);
    forall j, k | 0 <= j < k < |r| - 1
      ensures r[j] < r[k]
    {
      assert r[k] - r[j] == (k - j) * step;
      MulAtLeast(k - j, step);
    }
  }

  /** `loop` calls its callback ceil(limit/step) + 1 times. */
  lemma LoopCount(limit: int, step: int)
    requires limit >= 1 && step >= 1
    ensures |LoopIndices(limit, step)| == (limit + step - 1) / step + 1
  {
    LoopFromShape(limit, step, 0);
    var n := |LoopIndices(limit, step)| - 1;
    // From (n-1)*step < limit <= n*step: limit+step-1 is n*step plus a remainder below step.
    var rem := limit + step - 1 - n * step;
    assert 0 <= rem < step;
    DivModUnique(limit + step - 1, step, n, rem);
  }

  /** In a strictly increasing sequence every value occurs at most once. */
  lemma {:induction false} CountInIncreasing(s: seq<int>, v: int)
    requires forall j, k :: 0 <= j < k < |s| ==> s[j] < s[k]
    ensures multiset(s)[v] == if v in s then 1 else 0
  {
    if s != [] {
      var t := s[..|s| - 1];
      CountInIncreasing(t, v);
      assert s == t + [s[|s| - 1]];
      assert multiset(s) == multiset(t) + multiset{s[|s| - 1]};
      if v == s[|s| - 1] {
        assert v !in t;
      }
    }
  }

  /** `limit-1` is among the multiples `loop` passes first exactly when `step` divides it. */
  lemma LastAmongMultiples(limit: int, step: int)
    requires limit >= 1 && step >= 1
    ensures var r := LoopIndices(limit, step);
            |r| >= 2 && (limit - 1 in r[..|r| - 1] <==> (limit - 1) % step == 0)
  {
    LoopFromShape(limit, step, 0);
    var r := LoopIndices(limit, step);
    var prefix := r[..|r| - 1];
    if (limit - 1) % step == 0 {
      var q := (limit - 1) / step;
      DivBounds(limit - 1, step);
      MulCancelLess(q, |r| - 1, step);
      assert prefix[q] == limit - 1;
    } else {
      forall k | 0 <= k < |prefix|
        ensures prefix[k] != limit - 1
      {
        DivModMultiple(k, step);
      }
    }
  }

  /** A multiple of a positive number leaves remainder 0. */
  lemma DivModMultiple(k: int, step: int)
    requires step >= 1
    ensures (k * step) % step == 0
  {
    DivModUnique(k * step, step, k, 0);
  }

  /** Comparing multiples of a positive number compares the factors. */
  lemma MulCancelLess(a: int, b: int, c: int)
    requires c > 0 && a * c < b * c
    ensures a < b
  {
    if b <= a {
      MulMonotone(b, a, c);
    }
  }

  /** `limit-1` is passed twice exactly when it is a multiple of `step`, and once otherwise. */
  lemma LastVisitedTwice(limit: int, step: int)
    requires limit >= 1 && step >= 1
    ensures multiset(LoopIndices(limit, step))[limit - 1] == if (limit - 1) % step == 0 then 2 else 1
  {
    LoopEndAndOrder(limit, step);
    LastAmongMultiples(limit, step);
    var r := LoopIndices(limit, step);
    var prefix := r[..|r| - 1];
    assert r == prefix + [limit - 1];
    assert multiset(r) == multiset(prefix) + multiset{limit - 1};
    CountInIncreasing(prefix, limit - 1);
  }

  /**
   * `loop` as the solver's C++ code writes it, with the callback recording its argument:
   * the flag-controlled while loop visits exactly `LoopIndices`.
   */
  method Loop(limit: int, step: int) returns (visited: seq<int>)
    requires limit >= 1 && step >= 1
    ensures visited == LoopIndices(limit, step)
    ensures |visited| >= 2 && visited[0] == 0 && visited[|visited| - 1] == limit - 1
  {
    var iShouldContinue := true;
    var i := 0;
    visited := [];
    while iShouldContinue
      invariant 0 <= i
      invariant iShouldContinue ==> visited + LoopFrom(limit, step, i) == LoopIndices(limit, step)
      invariant !iShouldContinue ==> visited == LoopIndices(limit, step)
      decreases iShouldContinue, if i < limit then limit - i else 0
    {
      ghost var rest := LoopFrom(limit, step, i);
      if i >= limit {
        assert rest == [limit - 1];
        i := limit - 1;
        iShouldContinue := false;
        visited := visited + [i];
      } else {
        assert rest == [i] + LoopFrom(limit, step, i + step);
        assert visited + rest == (visited + [i]) + LoopFrom(limit, step, i + step);
        visited := visited + [i];
      }
      i := i + step;
    }
    LoopFromShape(limit, step, 0);
  }
}

=== FILE: exchange.dfy ===
/**
 * The request bookkeeping of `Comms`: a fixed pool of RQ_COUNT request slots,
 * filled two at a time by `exchange` (one send, one receive) and cleared by
 * `reset`. The transfers themselves belong to the message-passing runtime;
 * a slot records only what was posted into it.
 */
module Exchange {
  import opened Topology

  /** Size of the request pool: two requests for each of at most four neighbours. */
  const RQ_COUNT: nat := 8

  /**
   * One request slot. `Isend` carries the destination and the values the send
   * reads; `Irecv` names the direction whose outer edge the receive fills.
   */
  datatype Request<T> = Null | Isend(target: int, data: seq<T>) | Irecv(into: Direction)

  datatype Comms<T> = Comms(innerLength: nat, rq: seq<Request<T>>, nextId: nat) {

    /** Exactly the first `nextId` slots are in use, and they come in send/receive pairs. */
    ghost predicate Valid() {
      && |rq| == RQ_COUNT
      && nextId <= RQ_COUNT
      && nextId % 2 == 0
      && (forall i :: 0 <= i < RQ_COUNT ==> (rq[i].Null? <==> nextId <= i))
      && (forall i :: 0 <= i < nextId ==> (rq[i].Isend? <==> i % 2 == 0))
    }
  }

  /** `reset`: every slot back to the null request and the counter to zero. */
  function Reset<T>(c: Comms<T>): (r: Comms<T>)
    ensures r.Valid()
    ensures r.nextId == 0 && r.innerLength == c.innerLength
  {
    Comms(c.innerLength, seq(RQ_COUNT, _ => Null), 0)
  }

  /** The constructor: a channel for lines of `innerLength` values, already reset. */
  function NewComms<T>(innerLength: nat): (r: Comms<T>)
    ensures r.Valid() && r.nextId == 0 && r.innerLength == innerLength
  {
    Reset(Comms(innerLength, [], 0))
  }

  /**
   * `exchange`: post a send of the first `innerLength` values of `sendBuffer`
   * to `targetId` and a receive into the outer edge of `into`, in the next two
   * free slots. The slots written must exist in the pool.
   */
  function Post<T>(c: Comms<T>, targetId: int, sendBuffer: seq<T>, into: Direction): (r: Comms<T>)
    requires c.Valid() && c.nextId + 2 <= RQ_COUNT
    requires c.innerLength <= |sendBuffer|
    ensures r.Valid() && r.innerLength == c.innerLength
    ensures r.nextId == c.nextId + 2
    ensures r.rq[c.nextId] == Isend(targetId, sendBuffer[..c.innerLength])
    ensures r.rq[c.nextId + 1] == Irecv(into)
    ensures forall i :: 0 <= i < c.nextId ==> r.rq[i] == c.rq[i]
  {
    var rq := c.rq[c.nextId := Isend(targetId, sendBuffer[..c.innerLength])][c.nextId + 1 := Irecv(into)];
    Comms(c.innerLength, rq, c.nextId + 2)
  }

  /** The number of requests `wait` has to see completed before it returns. */
  function Outstanding<T>(c: Comms<T>): (n: nat)
    requires c.Valid()
    ensures n <= RQ_COUNT
    ensures forall i :: 0 <= i < RQ_COUNT ==> (c.rq[i].Null? <==> n <= i)
  {
    c.nextId
  }
}

=== FILE: halo.dfy ===
/**
 * The whole cluster at once: one workspace per node id. This module states
 * what the halo exchange achieves when every posted receive is filled by the
 * neighbour it faces — an idealised delivery. The code itself receives from
 * any source with any tag, so a receive takes whichever line arrives first;
 * neither the code nor the message-passing runtime ensures that a line lands
 * in the outer edge facing its sender. Here that matching is an assumption,
 * written into `Incoming`.
 */
module Halo {
  import opened Wrappers
  import opened Layout
  import opened Topology
  import opened Tiles

  /** Node `id` of a `sideLen`-wide grid, with tiles of side `L`, as the constructors leave it. */
  ghost predicate TileOf<T>(sideLen: nat, L: nat, id: nat, w: Workspace<T>)
    requires 0 < sideLen
  {
    && w.Valid()
    && w.innerLength == L
    && w.neigh == InitNeighbours(sideLen, id, id / sideLen, id % sideLen)
  }

  /** A cluster: one well-formed tile per node id, all of the same side. */
  ghost predicate IsCluster<T>(sideLen: nat, L: nat, g: seq<Workspace<T>>) {
    && 0 < sideLen
    && |g| == Sq(sideLen)
    && forall id :: 0 <= id < |g| ==> TileOf(sideLen, L, id, g[id])
  }

  /** The neighbour of a tile is a tile of the cluster that sees the tile in the opposite direction. */
  lemma NeighbourLink<T>(sideLen: nat, L: nat, g: seq<Workspace<T>>, id: nat, d: Direction)
    requires IsCluster(sideLen, L, g) && id < |g| && g[id].neigh.Has(d)
    ensures 0 <= g[id].neigh.Get(d) < |g|
    ensures g[g[id].neigh.Get(d)].neigh.Get(Opposite(d)) == id
  {
    NeighbourSymmetric(sideLen, id, 0, d);
    var n := g[id].neigh.Get(d);
    NeighbourSymmetric(sideLen, id, n, d);
  }

  /** The line the neighbour in direction `d` snapshotted towards tile `id`. */
  function LineFrom<T>(sideLen: nat, L: nat, g: seq<Workspace<T>>, id: nat, d: Direction): (line: Option<seq<T>>)
    requires IsCluster(sideLen, L, g) && id < |g| && g[id].neigh.Has(d)
    ensures line.Some? && |line.value| == L
  {
    NeighbourLink(sideLen, L, g, id, d);
    g[g[id].neigh.Get(d)].innerEdge.Get(Opposite(d))
  }

  /**
   * Idealised delivery to tile `id`: the outer edge facing `d` receives the
   * inner edge the neighbour in direction `d` snapshotted towards this tile.
   */
  function Incoming<T>(sideLen: nat, L: nat, g: seq<Workspace<T>>, id: nat): (e: Edges<T>)
    requires IsCluster(sideLen, L, g) && id < |g|
    ensures EdgesShaped(e, g[id].neigh, L)
    ensures forall d :: g[id].neigh.Has(d) ==> e.Get(d) == LineFrom(sideLen, L, g, id, d)
  {
    var n := g[id].neigh;
    Edges(
      if n.Has(Left) then LineFrom(sideLen, L, g, id, Left) else None,
      if n.Has(Top) then LineFrom(sideLen, L, g, id, Top) else None,
      if n.Has(Right) then LineFrom(sideLen, L, g, id, Right) else None,
      if n.Has(Bottom) then LineFrom(sideLen, L, g, id, Bottom) else None)
  }

  /** Every tile snapshots its edges: the first step of `swap`, taken everywhere. */
  function SnapshotAll<T>(sideLen: nat, L: nat, g: seq<Workspace<T>>): (s: seq<Workspace<T>>)
    requires IsCluster(sideLen, L, g)
    ensures IsCluster(sideLen, L, s)
    ensures forall id :: 0 <= id < |g| ==> s[id] == CopyInnerEdgesToBuffers(g[id])
  {
    seq(|g|, id requires 0 <= id < |g| => CopyInnerEdgesToBuffers(g[id]))
  }

  /**
   * One iteration's `swap` on every tile of the cluster: snapshot, idealised
   * delivery of every neighbour's snapshot, and the buffer flip.
   */
  function SynchronizeAll<T>(sideLen: nat, L: nat, g: seq<Workspace<T>>): (h: seq<Workspace<T>>)
    requires IsCluster(sideLen, L, g)
    ensures IsCluster(sideLen, L, h)
  {
    var s := SnapshotAll(sideLen, L, g);
    seq(|s|, id requires 0 <= id < |s| => SwapBuffers(Receive(s[id], Incoming(sideLen, L, s, id))))
  }

  /**
   * Exchange round trip: after the iteration, the outer edge a tile keeps
   * towards a neighbour holds exactly the side of the neighbour's front
   * buffer that faced it, value for value and in order.
   */
  lemma {:induction false} ExchangeRoundTrip<T>(sideLen: nat, L: nat, g: seq<Workspace<T>>, id: nat, d: Direction)
    requires IsCluster(sideLen, L, g) && id < |g| && g[id].neigh.Has(d)
    ensures 0 <= g[id].neigh.Get(d) < |g|
    ensures SynchronizeAll(sideLen, L, g)[id].outerEdge.Get(d)
            == Some(EdgeLine(g[g[id].neigh.Get(d)].front, L, Opposite(d)))
  {
    NeighbourLink(sideLen, L, g, id, d);
    var n := g[id].neigh.Get(d);
    var s := SnapshotAll(sideLen, L, g);
    assert s[n].innerEdge.Get(Opposite(d)) == Some(EdgeLine(g[n].front, L, Opposite(d)));
    assert Incoming(sideLen, L, s, id).Get(d) == s[n].innerEdge.Get(Opposite(d));
  }

  /** What one tile looks like after the iteration. */
  lemma SynchronizedTile<T>(sideLen: nat, L: nat, g: seq<Workspace<T>>, id: nat)
    requires IsCluster(sideLen, L, g) && id < |g|
    ensures var t := SynchronizeAll(sideLen, L, g)[id];
            && t.Valid() && t.innerLength == L
            && t.neigh == g[id].neigh && t.borderCond == g[id].borderCond
            && t.back == g[id].front
  {
  }

  /**
   * The window property: after the iteration, a read one step outside a
   * tile returns what the neighbour's adjacent boundary cell reads, and a
   * read past a side without a neighbour returns the boundary constant.
   */
  lemma {:induction false} ReadAcrossSeam<T>(sideLen: nat, L: nat, g: seq<Workspace<T>>, id: nat, d: Direction, k: int)
    requires IsCluster(sideLen, L, g) && id < |g| && 0 <= k < L
    ensures var h := SynchronizeAll(sideLen, L, g);
            var (x, y) := Outside(L, d, k);
            && id < |h| && h[id].Valid() && h[id].innerLength == L
            && Resolvable(h[id], x, y) && !IsCorner(L, x, y)
    ensures var h := SynchronizeAll(sideLen, L, g);
            var (x, y) := Outside(L, d, k);
            var n := g[id].neigh.Get(d);
            var (cx, cy) := EdgeCell(L, Opposite(d), k);
            && (!g[id].neigh.Has(d) ==> GetElb(h[id], x, y) == Success(g[id].borderCond))
            && (g[id].neigh.Has(d) ==>
                  && 0 <= n < |h| && h[n].Valid() && h[n].innerLength == L
                  && Resolvable(h[n], cx, cy) && GetElb(h[id], x, y) == GetElb(h[n], cx, cy))
  {
    var h := SynchronizeAll(sideLen, L, g);
    SynchronizedTile(sideLen, L, g, id);
    OutsideIsSideRead(h[id], d, k);
    if g[id].neigh.Has(d) {
      ExchangeRoundTrip(sideLen, L, g, id, d);
      var n := g[id].neigh.Get(d);
      SynchronizedTile(sideLen, L, g, n);
      SeamRead(h[id], h[n], d, k);
    }
  }

  /**
   * A field that holds one value `v` everywhere stays seamless: after the
   * iteration every read past a side sees `v` from the neighbour, or the
   * boundary constant where there is none.
   */
  lemma UniformFieldExchange<T>(sideLen: nat, L: nat, g: seq<Workspace<T>>, v: T, id: nat, d: Direction, k: int)
    requires IsCluster(sideLen, L, g) && id < |g| && 0 <= k < L
    requires forall i :: 0 <= i < |g| ==> AllEqual(g[i].front, v)
    ensures var h := SynchronizeAll(sideLen, L, g);
            var (x, y) := Outside(L, d, k);
            Resolvable(h[id], x, y)
            && GetElb(h[id], x, y) == Success(if g[id].neigh.Has(d) then v else g[id].borderCond)
  {
    ReadAcrossSeam(sideLen, L, g, id, d, k);
    if g[id].neigh.Has(d) {
      var h := SynchronizeAll(sideLen, L, g);
      var n := g[id].neigh.Get(d);
      SynchronizedTile(sideLen, L, g, n);
      assert AllEqual(h[n].back, v);
      UniformRead(h[n], Opposite(d), k, v);
    }
  }

  /** Every value of `buffer` is `v`. */
  ghost predicate AllEqual<T>(buffer: seq<T>, v: T) {
    forall j :: 0 <= j < |buffer| ==> buffer[j] == v
  }

  /** A tile whose back buffer holds `v` everywhere reads `v` at every cell along its sides. */
  lemma UniformRead<T>(w: Workspace<T>, d: Direction, k: int, v: T)
    requires w.Valid() && 0 <= k < w.innerLength && AllEqual(w.back, v)
    ensures var (x, y) := EdgeCell(w.innerLength, d, k);
            Resolvable(w, x, y) && GetElb(w, x, y) == Success(v)
  {
    EdgeCellInterior(w.innerLength, d, k);
  }
}

=== FILE: layout.dfy ===
/**
 * Row-major placement of a square of cells into one flat index range. The
 * solver uses it twice: node ids are laid out over the process grid, and tile
 * cells are laid out over the flat `front`/`back` buffers.
 */
module Layout {

  /** The square of `s`; named so that quantifiers over it have a trigger. */
  function Sq(s: int): int {
    s * s
  }

  /** Flat index of position (major, minor) in a square of side `width`. */
  function RowMajor(width: int, major: int, minor: int): int {
    major * width + minor
  }

  /** A positive multiple of `width` is at least `width`. */
  lemma MulAtLeast(k: int, width: int)
    requires 1 <= k && 0 < width
    ensures k * width >= width
    decreases k
  {
    if k > 1 {
      MulAtLeast(k - 1, width);
      assert k * width == (k - 1) * width + width;
    }
  }

  /** Multiplying by a non-negative factor keeps the order. */
  lemma MulMonotone(a: int, b: int, c: int)
    requires a <= b && 0 <= c
    ensures a * c <= b * c
  {
    if a < b {
      MulAtLeast(b - a, c + 1);
      assert (b - a) * c >= 0;
      assert b * c - a * c == (b - a) * c;
    }
  }

  /** The quotient of a non-negative number brackets it between two multiples. */
  lemma DivBounds(a: int, b: int)
    requires 0 <= a && 0 < b
    ensures 0 <= a / b
    ensures (a / b) * b <= a < (a / b + 1) * b
  {
    assert a == (a / b) * b + a % b;
    assert (a / b + 1) * b == (a / b) * b + b;
  }

  /** Euclidean quotient and remainder are determined by any valid decomposition. */
  lemma DivModUnique(a: int, width: int, q: int, r: int)
    requires 0 < width && 0 <= r < width && a == q * width + r
    ensures a / width == q && a % width == r
  {
    var q0, r0 := a / width, a % width;
    assert a == q0 * width + r0;
    assert (q - q0) * width == r0 - r by {
      assert (q - q0) * width == q * width - q0 * width;
    }
    if q0 < q {
      MulAtLeast(q - q0, width);
    } else if q < q0 {
      MulAtLeast(q0 - q, width);
    }
  }

  /** A position inside the square lands inside the flat range and can be recovered. */
  lemma RowMajorRoundTrip(width: int, major: int, minor: int)
    requires 0 <= major < width && 0 <= minor < width
    ensures 0 <= RowMajor(width, major, minor) < Sq(width)
    ensures RowMajor(width, major, minor) / width == major
    ensures RowMajor(width, major, minor) % width == minor
  {
    DivModUnique(RowMajor(width, major, minor), width, major, minor);
    MulMonotone(0, major, width);
    MulMonotone(major, width - 1, width);
    assert (width - 1) * width + width == Sq(width);
  }

  /** Every flat index of the range is the placement of exactly the position div/mod gives. */
  lemma PositionRoundTrip(width: int, i: int)
    requires 0 < width && 0 <= i < Sq(width)
    ensures 0 <= i / width < width && 0 <= i % width < width
    ensures RowMajor(width, i / width, i % width) == i
  {
    var q := i / width;
    assert i == q * width + i % width;
    if q >= width {
      MulAtLeast(q - width + 1, width);
      assert false;
    }
  }

  /** Distinct positions of the square have distinct flat indices. */
  lemma RowMajorInjective(width: int, a: int, b: int, c: int, d: int)
    requires 0 <= a < width && 0 <= b < width && 0 <= c < width && 0 <= d < width
    requires RowMajor(width, a, b) == RowMajor(width, c, d)
    ensures a == c && b == d
  {
    RowMajorRoundTrip(width, a, b);
    RowMajorRoundTrip(width, c, d);
  }
}

=== FILE: timer.dfy ===
/**
 * The integer arithmetic of `Timer`: a `timespec` is turned into a count of
 * nanoseconds, and `stop` reports the nanoseconds elapsed since `start`. The
 * clock readings themselves are parameters.
 */
module Timing {
  import opened Layout

  const NANOS_PER_SECOND: int := 1000000000

  /** A clock reading: whole seconds and the nanoseconds past them. */
  datatype Timespec = Timespec(tvSec: int, tvNsec: int) {

    /** What `clock_gettime` returns: the nanosecond part is below one second. */
    predicate Normalised() {
      0 <= tvNsec < NANOS_PER_SECOND
    }

    /** Chronological order of readings: earlier second, or same second and no later nanosecond. */
    predicate NotAfter(other: Timespec) {
      tvSec < other.tvSec || (tvSec == other.tvSec && tvNsec <= other.tvNsec)
    }
  }

  /**
   * `conv`: the reading in nanoseconds (its doc comment says microseconds,
   * the arithmetic gives nanoseconds). On normalised readings it loses
   * nothing: seconds and nanoseconds are its quotient and remainder.
   */
  function Conv(t: Timespec): (ns: int)
    ensures t.Normalised() ==> ns / NANOS_PER_SECOND == t.tvSec && ns % NANOS_PER_SECOND == t.tvNsec
  {
    var ns := t.tvSec * NANOS_PER_SECOND + t.tvNsec;
    if t.Normalised() then
      DivModUnique(ns, NANOS_PER_SECOND, t.tvSec, t.tvNsec);
      ns
    else ns
  }

  /** Nanosecond counts of normalised readings are ordered as the readings are. */
  lemma ConvMonotone(a: Timespec, b: Timespec)
    requires a.Normalised() && b.Normalised()
    ensures Conv(a) <= Conv(b) <==> a.NotAfter(b)
    ensures Conv(a) == Conv(b) <==> a == b
  {
  }

  /** The timer's only state: the reading taken by `start`. */
  datatype Timer = Timer(tm: Timespec)

  /** The constructor leaves the reading zeroed (the resolution query in between is output only). */
  function NewTimer(): (t: Timer)
    ensures t.tm.Normalised() && Conv(t.tm) == 0
  {
    Timer(Timespec(0, 0))
  }

  /**
   * `start`: remember the current reading `now`, dropping any earlier one.
   * Every later `stop` measures from `now`.
   */
  function Start(t: Timer, now: Timespec): (r: Timer)
    ensures forall later :: Stop(r, later) == Conv(later) - Conv(now)
  {
    Timer(now)
  }

  /**
   * `stop`: nanoseconds from the started reading to the reading `now`. It is
   * non-negative exactly when `now` is not earlier, and zero exactly when
   * the readings coincide.
   */
  function Stop(t: Timer, now: Timespec): (d: int)
    ensures d + Conv(t.tm) == Conv(now)
    ensures t.tm.Normalised() && now.Normalised() ==> (d >= 0 <==> t.tm.NotAfter(now))
    ensures t.tm.Normalised() && now.Normalised() ==> (d == 0 <==> now == t.tm)
  {
    var start := Conv(t.tm);
    var end := Conv(now);
    if t.tm.Normalised() && now.Normalised() then
      ConvMonotone(t.tm, now);
      end - start
    else end - start
  }

  /**
   * `start` then `stop`: the elapsed count is the difference of the two
   * readings' counts, whatever the timer held before, and for normalised
   * readings it is non-negative exactly when the second is not earlier.
   */
  lemma StartThenStop(t: Timer, a: Timespec, b: Timespec)
    ensures Stop(Start(t, a), b) == Conv(b) - Conv(a)
    ensures a.Normalised() && b.Normalised() ==> (Stop(Start(t, a), b) >= 0 <==> a.NotAfter(b))
    ensures a.Normalised() && b.Normalised() ==> (Stop(Start(t, a), b) == 0 <==> a == b)
  {
  }
}

=== FILE: topology.dfy ===
/**
 * The cluster manager of the parallel solver: from this process's node id and
 * the number of nodes it derives the side of the square process grid, the
 * node's (row, column) position and the ids of its four neighbours, with the
 * sentinel N_INVALID where the tile touches the global domain boundary.
 */
module Topology {
  import opened Wrappers
  import opened Layout

  /** Neighbour id stored for a direction in which there is no neighbour. */
  const N_INVALID: int := -1

  /** The four directions of the solver's `Neighbour` enum. */
  datatype Direction = Left | Top | Right | Bottom

  /** The enum value of a direction: LEFT = 0, TOP = 1, RIGHT = 2, BOTTOM = 3. */
  function Index(d: Direction): nat {
    match d
    case Left => 0
    case Top => 1
    case Right => 2
    case Bottom => 3
  }

  /** The directions in enum order, which is the order `swap` visits them in. */
  const Directions: seq<Direction> := [Left, Top, Right, Bottom]

  /**
   * `Directions` lists every direction once, at its enum value: the loop
   * counter of `swap` running over 0..3 meets LEFT, TOP, RIGHT, BOTTOM.
   */
  lemma DirectionsInEnumOrder()
    ensures |Directions| == 4
    ensures forall i :: 0 <= i < |Directions| ==> Index(Directions[i]) == i
    ensures forall d :: Directions[Index(d)] == d
  {
  }

  /** The direction a neighbour sees this node in. */
  function Opposite(d: Direction): (o: Direction)
    ensures o != d
  {
    match d
    case Left => Right
    case Right => Left
    case Top => Bottom
    case Bottom => Top
  }

  /** The neighbour table: one id, or N_INVALID, per direction. */
  datatype Neighbours = Neighbours(left: int, top: int, right: int, bottom: int) {

    function Get(d: Direction): int {
      match d
      case Left => left
      case Top => top
      case Right => right
      case Bottom => bottom
    }

    /** Whether there is a neighbour in direction `d`. */
    predicate Has(d: Direction) {
      Get(d) != N_INVALID
    }
  }

  /** The `runtime_error` thrown when the node count is not a perfect square. */
  datatype Error = IncorrectNodeCount(nodeCount: int)

  /** What the constructor leaves in the fields of a `ClusterManager`. */
  datatype ClusterManager = ClusterManager(
    nodeId: nat,
    nodeCount: nat,
    sideLen: nat,
    row: nat,
    column: nat,
    neighbours: Neighbours)
  {
    /** The node sits at its own grid position and knows its geometric neighbours. */
    ghost predicate Valid() {
      && 0 < sideLen
      && Sq(sideLen) == nodeCount
      && row < sideLen && column < sideLen
      && RowMajor(sideLen, row, column) == nodeId
      && forall d :: neighbours.Get(d) == GridNeighbour(sideLen, row, column, d)
    }
  }

  /** Whether `n` is the square of some natural number. */
  ghost predicate IsPerfectSquare(n: nat) {
    exists s: nat :: Sq(s) == n
  }

  /** The integer square root: the largest `r` whose square does not exceed `n`. */
  function Isqrt(n: nat): (r: nat)
    ensures Sq(r) <= n < Sq(r + 1)
  {
    if n == 0 then 0
    else
      var r := Isqrt(n - 1);
      if Sq(r + 1) <= n then
        SquareSucc(r + 1);
        r + 1
      else r
  }

  /** Consecutive squares differ by an odd number. */
  lemma SquareSucc(r: int)
    ensures Sq(r + 1) == Sq(r) + 2 * r + 1
  {
    assert (r + 1) * (r + 1) == r * r + 2 * r + 1;
  }

  /** A square has exactly one natural root, and Isqrt finds it. */
  lemma IsqrtOfSquare(s: nat)
    ensures Isqrt(Sq(s)) == s
  {
    var r := Isqrt(Sq(s));
    SquareOrder(s, r + 1);
    SquareOrder(r, s);
  }

  /** On the naturals, squaring preserves and reflects strict order. */
  lemma SquareOrder(a: nat, b: nat)
    ensures a < b <==> Sq(a) < Sq(b)
  {
    assert Sq(b) - Sq(a) == (b - a) * (b + a);
    if a < b {
      MulAtLeast(b - a, b + a);
    } else if b < a {
      MulAtLeast(a - b, a + b);
    }
  }

  /** The perfect-square test the constructor performs, with `sqrt` taken exactly. */
  lemma SquareTestExact(n: nat)
    ensures Sq(Isqrt(n)) == n <==> IsPerfectSquare(n)
  {
    if IsPerfectSquare(n) {
      var s: nat :| Sq(s) == n;
      IsqrtOfSquare(s);
    }
  }

  /** The grid cell one step from (row, column) in direction `d`. */
  function Step(row: int, column: int, d: Direction): (int, int) {
    match d
    case Top => (row - 1, column)
    case Bottom => (row + 1, column)
    case Left => (row, column - 1)
    case Right => (row, column + 1)
  }

  /**
   * Reference definition of a neighbour: the id of the adjacent grid cell in
   * direction `d`, or N_INVALID when that cell lies outside the grid.
   */
  function GridNeighbour(sideLen: nat, row: int, column: int, d: Direction): int {
    var (r, c) := Step(row, column, d);
    if 0 <= r < sideLen && 0 <= c < sideLen then RowMajor(sideLen, r, c) else N_INVALID
  }

  /** The neighbour table exactly as `initNeighbours` fills it. */
  function InitNeighbours(sideLen: nat, nodeId: int, row: int, column: int): Neighbours {
    Neighbours(
      left := if column == 0 then N_INVALID else nodeId - 1,
      top := if row == 0 then N_INVALID else nodeId - sideLen,
      right := if column == sideLen - 1 then N_INVALID else nodeId + 1,
      bottom := if row == sideLen - 1 then N_INVALID else nodeId + sideLen)
  }

  /**
   * The id arithmetic of `initNeighbours` finds exactly the geometrically
   * adjacent cells: a sentinel precisely at the grid edge, otherwise the id of
   * the cell one step away.
   */
  lemma InitNeighboursAreGridNeighbours(sideLen: nat, row: nat, column: nat)
    requires row < sideLen && column < sideLen
    ensures forall d :: InitNeighbours(sideLen, RowMajor(sideLen, row, column), row, column).Get(d)
                        == GridNeighbour(sideLen, row, column, d)
  {
  }

  /** The `ClusterManager` constructor, with the MPI rank and size as parameters. */
  function NewClusterManager(nodeId: nat, nodeCount: nat): (r: Result<ClusterManager, Error>)
    requires nodeId < nodeCount
    ensures r.Failure? <==> !IsPerfectSquare(nodeCount)
    ensures r.Failure? ==> r.error == IncorrectNodeCount(nodeCount)
    ensures r.Success? ==> r.value.Valid()
    ensures r.Success? ==> r.value.nodeId == nodeId && r.value.nodeCount == nodeCount
  {
    var sqr := Isqrt(nodeCount);
    SquareTestExact(nodeCount);
    if Sq(sqr) != nodeCount then
      Failure(IncorrectNodeCount(nodeCount))
    else
      PositionRoundTrip(sqr, nodeId);
      var row := nodeId / sqr;
      var column := nodeId % sqr;
      InitNeighboursAreGridNeighbours(sqr, row, column);
      Success(ClusterManager(nodeId, nodeCount, sqr, row, column, InitNeighbours(sqr, nodeId, row, column)))
  }

  /** The neighbour id that node `id` of a `sideLen`-wide grid stores for direction `d`. */
  function NeighbourOf(sideLen: nat, id: nat, d: Direction): int
    requires 0 < sideLen && id < Sq(sideLen)
  {
    InitNeighbours(sideLen, id, id / sideLen, id % sideLen).Get(d)
  }

  /**
   * Every stored neighbour is a node of the cluster, and the relation is
   * symmetric: b is a's neighbour in direction d exactly when a is b's
   * neighbour in the opposite direction.
   */
  lemma {:induction false} NeighbourSymmetric(sideLen: nat, a: nat, b: nat, d: Direction)
    requires 0 < sideLen && a < Sq(sideLen) && b < Sq(sideLen)
    ensures NeighbourOf(sideLen, a, d) == N_INVALID || 0 <= NeighbourOf(sideLen, a, d) < Sq(sideLen)
    ensures NeighbourOf(sideLen, a, d) == b <==> NeighbourOf(sideLen, b, Opposite(d)) == a
  {
    PositionRoundTrip(sideLen, a);
    PositionRoundTrip(sideLen, b);
    var (ra, ca) := (a / sideLen, a % sideLen);
    var (rb, cb) := (b / sideLen, b % sideLen);
    InitNeighboursAreGridNeighbours(sideLen, ra, ca);
    InitNeighboursAreGridNeighbours(sideLen, rb, cb);
    var (r, c) := Step(ra, ca, d);
    if 0 <= r < sideLen && 0 <= c < sideLen {
      RowMajorRoundTrip(sideLen, r, c);
      if RowMajor(sideLen, r, c) == b {
        RowMajorInjective(sideLen, r, c, rb, cb);
      }
    }
    var (r', c') := Step(rb, cb, Opposite(d));
    if 0 <= r' < sideLen && 0 <= c' < sideLen && RowMajor(sideLen, r', c') == a {
      RowMajorInjective(sideLen, r', c', ra, ca);
    }
  }

  /** How many of the four directions hold a neighbour. */
  function NeighbourCount(n: Neighbours): (k: nat)
    ensures k <= 4
  {
    (if n.Has(Left) then 1 else 0) + (if n.Has(Top) then 1 else 0)
    + (if n.Has(Right) then 1 else 0) + (if n.Has(Bottom) then 1 else 0)
  }

  /**
   * A node loses one neighbour for each grid edge it lies on: corners keep
   * two, other edge nodes three, inner nodes four, and the only node of a
   * 1×1 grid none.
   */
  lemma NeighbourCountByPosition(c: ClusterManager)
    requires c.Valid()
    ensures NeighbourCount(c.neighbours)
            == 4 - (if c.row == 0 then 1 else 0) - (if c.row == c.sideLen - 1 then 1 else 0)
                 - (if c.column == 0 then 1 else 0) - (if c.column == c.sideLen - 1 then 1 else 0)
  {
    assert c.neighbours.Get(Left) == GridNeighbour(c.sideLen, c.row, c.column, Left);
    assert c.neighbours.Get(Top) == GridNeighbour(c.sideLen, c.row, c.column, Top);
    assert c.neighbours.Get(Right) == GridNeighbour(c.sideLen, c.row, c.column, Right);
    assert c.neighbours.Get(Bottom) == GridNeighbour(c.sideLen, c.row, c.column, Bottom);
    forall d | 0 <= Step(c.row, c.column, d).0 < c.sideLen && 0 <= Step(c.row, c.column, d).1 < c.sideLen
      ensures GridNeighbour(c.sideLen, c.row, c.column, d) >= 0
    {
      var (r, cc) := Step(c.row, c.column, d);
      RowMajorRoundTrip(c.sideLen, r, cc);
    }
  }
}

=== FILE: workspace.dfy ===
/**
 * The tile workspace of one process: a `front` buffer that the next iteration
 * writes, a `back` buffer that reads see, and per-direction edge lines that
 * exist only towards an existing neighbour. Cell values are opaque: the
 * workspace only stores and copies them.
 *
 * Coordinates are those of the code: the tile interior is 0 .. innerLength-1
 * on both axes, cell (x, y) lives at flat index x*innerLength + y, and the
 * out-of-tile coordinates are -1 and innerLength+1.
 */
module Tiles {
  import opened Wrappers
  import opened Layout
  import opened Topology
  import opened Exchange

  /** One optional line per direction: the `innerEdge[4]` / `outerEdge[4]` pointer arrays. */
  datatype Edges<T> = Edges(left: Option<seq<T>>, top: Option<seq<T>>, right: Option<seq<T>>, bottom: Option<seq<T>>) {

    function Get(d: Direction): Option<seq<T>> {
      match d
      case Left => left
      case Top => top
      case Right => right
      case Bottom => bottom
    }

    function Set(d: Direction, v: Option<seq<T>>): (r: Edges<T>)
      ensures r.Get(d) == v
      ensures forall e :: e != d ==> r.Get(e) == Get(e)
    {
      match d
      case Left => this.(left := v)
      case Top => this.(top := v)
      case Right => this.(right := v)
      case Bottom => this.(bottom := v)
    }
  }

  /** A line exists for a direction exactly when the neighbour does, and has full length. */
  ghost predicate EdgesShaped<T>(e: Edges<T>, neigh: Neighbours, length: nat) {
    forall d :: (e.Get(d).Some? <==> neigh.Has(d)) && (e.Get(d).Some? ==> |e.Get(d).value| == length)
  }

  /** The `runtime_error` thrown by a read at a corner. */
  datatype Error = CornerAccess

  datatype Workspace<T> = Workspace(
    innerLength: nat,
    borderCond: T,
    neigh: Neighbours,
    front: seq<T>,
    back: seq<T>,
    innerEdge: Edges<T>,
    outerEdge: Edges<T>)
  {
    ghost predicate Valid() {
      && |front| == Sq(innerLength)
      && |back| == Sq(innerLength)
      && EdgesShaped(innerEdge, neigh, innerLength)
      && EdgesShaped(outerEdge, neigh, innerLength)
    }
  }

  /** Flat buffer index of cell (x, y): the code's `x*innerLength + y`. */
  function CellIndex(innerLength: nat, x: int, y: int): int {
    RowMajor(innerLength, x, y)
  }

  /** Whether (x, y) is a cell of the tile interior. */
  predicate Interior(innerLength: nat, x: int, y: int) {
    0 <= x < innerLength && 0 <= y < innerLength
  }

  /** Whether one coordinate is out of the tile: -1 or innerLength+1. */
  predicate IsVirtual(innerLength: nat, v: int) {
    v == -1 || v == innerLength + 1
  }

  predicate IsCorner(innerLength: nat, x: int, y: int) {
    IsVirtual(innerLength, x) && IsVirtual(innerLength, y)
  }

  /** The out-of-tile coordinate facing direction `d`, at position `k` along that side. */
  function Outside(innerLength: nat, d: Direction, k: int): (int, int) {
    match d
    case Left => (-1, k)
    case Right => (innerLength + 1, k)
    case Bottom => (k, -1)
    case Top => (k, innerLength + 1)
  }

  /** The tile cell on the side facing direction `d`, at position `k` along that side. */
  function EdgeCell(innerLength: nat, d: Direction, k: int): (int, int) {
    match d
    case Left => (0, k)
    case Right => (innerLength - 1, k)
    case Bottom => (k, 0)
    case Top => (k, innerLength - 1)
  }

  lemma EdgeCellInterior(innerLength: nat, d: Direction, k: int)
    requires 0 <= k < innerLength
    ensures Interior(innerLength, EdgeCell(innerLength, d, k).0, EdgeCell(innerLength, d, k).1)
    ensures 0 <= CellIndex(innerLength, EdgeCell(innerLength, d, k).0, EdgeCell(innerLength, d, k).1) < Sq(innerLength)
  {
    var (x, y) := EdgeCell(innerLength, d, k);
    RowMajorRoundTrip(innerLength, x, y);
  }

  /**
   * Whether the flat index of (x, y) lies inside a main buffer. Interior
   * cells always qualify; the first disjunct says so without arithmetic.
   */
  predicate InBuffer(innerLength: nat, x: int, y: int) {
    Interior(innerLength, x, y) || 0 <= CellIndex(innerLength, x, y) < Sq(innerLength)
  }

  lemma InBufferIndex(innerLength: nat, x: int, y: int)
    ensures InBuffer(innerLength, x, y) ==> 0 <= CellIndex(innerLength, x, y) < Sq(innerLength)
  {
    if Interior(innerLength, x, y) {
      RowMajorRoundTrip(innerLength, x, y);
    }
  }

  /**
   * The coordinates `get_elb` answers without indexing outside a buffer: a
   * corner (which throws), a side coordinate whose index is inside the edge
   * line or whose side has no neighbour, or any pair whose flat index is
   * inside `back`.
   */
  predicate Resolvable<T>(w: Workspace<T>, x: int, y: int) {
    var L := w.innerLength;
    if x == -1 || x == L + 1 then
      IsVirtual(L, y) || !w.neigh.Has(if x == -1 then Left else Right) || 0 <= y < L
    else if y == -1 || y == L + 1 then
      !w.neigh.Has(if y == -1 then Bottom else Top) || 0 <= x < L
    else
      InBuffer(L, x, y)
  }

  /** The value a main buffer holds for cell (x, y). */
  function CellAt<T>(buffer: seq<T>, innerLength: nat, x: int, y: int): T
    requires |buffer| == Sq(innerLength) && InBuffer(innerLength, x, y)
  {
    InBufferIndex(innerLength, x, y);
    buffer[CellIndex(innerLength, x, y)]
  }

  /** `allocateBuffers`: both main buffers, and edge lines only towards existing neighbours. */
  function Allocate<T>(size: nat, borderCond: T, neigh: Neighbours, fill: T): (w: Workspace<T>)
    ensures w.Valid()
    ensures w.innerLength == size && w.borderCond == borderCond && w.neigh == neigh
    ensures forall d :: w.innerEdge.Get(d).Some? <==> neigh.Get(d) != N_INVALID
    ensures forall d :: w.outerEdge.Get(d).Some? <==> neigh.Get(d) != N_INVALID
  {
    var line := seq(size, _ => fill);
    var edges := Edges(
      if neigh.Has(Left) then Some(line) else None,
      if neigh.Has(Top) then Some(line) else None,
      if neigh.Has(Right) then Some(line) else None,
      if neigh.Has(Bottom) then Some(line) else None);
    Workspace(size, borderCond, neigh, seq(Sq(size), _ => fill), seq(Sq(size), _ => fill), edges, edges)
  }

  /** `set_elf`: store `value` in the front buffer at cell (x, y). */
  function SetElf<T>(w: Workspace<T>, x: int, y: int, value: T): (r: Workspace<T>)
    requires w.Valid() && InBuffer(w.innerLength, x, y)
    ensures r.innerLength == w.innerLength && r.borderCond == w.borderCond && r.neigh == w.neigh
    ensures r.back == w.back && r.innerEdge == w.innerEdge && r.outerEdge == w.outerEdge
    ensures r.Valid()
    ensures CellAt(r.front, w.innerLength, x, y) == value
    ensures forall i :: 0 <= i < |w.front| && i != CellIndex(w.innerLength, x, y) ==> r.front[i] == w.front[i]
  {
    InBufferIndex(w.innerLength, x, y);
    w.(front := w.front[CellIndex(w.innerLength, x, y) := value])
  }

  /** What a read on the side facing `d` sees: the received line, or the boundary constant. */
  function SideValue<T>(w: Workspace<T>, d: Direction, k: int): T
    requires w.Valid() && (w.neigh.Has(d) ==> 0 <= k < w.innerLength)
  {
    if w.neigh.Has(d) then w.outerEdge.Get(d).value[k] else w.borderCond
  }

  /** `get_elb`: read the back buffer, a received edge value or the boundary constant. */
  function GetElb<T>(w: Workspace<T>, x: int, y: int): (r: Result<T, Error>)
    requires w.Valid() && Resolvable(w, x, y)
    ensures r.Failure? <==> IsCorner(w.innerLength, x, y)
    ensures r.Failure? ==> r.error == CornerAccess
    ensures x == -1 && !IsVirtual(w.innerLength, y) ==> r == Success(SideValue(w, Left, y))
    ensures x == w.innerLength + 1 && !IsVirtual(w.innerLength, y) ==> r == Success(SideValue(w, Right, y))
    ensures y == -1 && !IsVirtual(w.innerLength, x) ==> r == Success(SideValue(w, Bottom, x))
    ensures y == w.innerLength + 1 && !IsVirtual(w.innerLength, x) ==> r == Success(SideValue(w, Top, x))
    ensures !IsVirtual(w.innerLength, x) && !IsVirtual(w.innerLength, y)
            ==> r == Success(CellAt(w.back, w.innerLength, x, y))
  {
    var L := w.innerLength;
    if x == -1 then
      if y == -1 then Failure(CornerAccess)
      else if y == L + 1 then Failure(CornerAccess)
      else if w.neigh.Get(Left) != N_INVALID then Success(w.outerEdge.Get(Left).value[y])
      else Success(w.borderCond)
    else if x == L + 1 then
      if y == -1 then Failure(CornerAccess)
      else if y == L + 1 then Failure(CornerAccess)
      else if w.neigh.Get(Right) != N_INVALID then Success(w.outerEdge.Get(Right).value[y])
      else Success(w.borderCond)
    else
      if y == -1 then
        if w.neigh.Get(Bottom) != N_INVALID then Success(w.outerEdge.Get(Bottom).value[x])
        else Success(w.borderCond)
      else if y == L + 1 then
        if w.neigh.Get(Top) != N_INVALID then Success(w.outerEdge.Get(Top).value[x])
        else Success(w.borderCond)
      else
        Success(CellAt(w.back, L, x, y))
  }

  /**
   * `getLength`: the tile side, i.e. the first coordinate past the interior
   * along x: every cell below it can be read and (n, 0) cannot.
   */
  function GetLength<T>(w: Workspace<T>): (n: nat)
    ensures forall x, y :: Interior(n, x, y) ==> Resolvable(w, x, y)
    ensures !Resolvable(w, n, 0)
  {
    w.innerLength
  }

  /** `swapBuffers`: the front and back buffers exchange roles. */
  function SwapBuffers<T>(w: Workspace<T>): (r: Workspace<T>)
    requires w.Valid()
    ensures r.Valid()
    ensures r.front == w.back && r.back == w.front
    ensures r.innerLength == w.innerLength && r.borderCond == w.borderCond && r.neigh == w.neigh
    ensures r.innerEdge == w.innerEdge && r.outerEdge == w.outerEdge
  {
    w.(front := w.back, back := w.front)
  }

  /** The line of `buffer` along the side facing `d`, in edge order. */
  function EdgeLine<T>(buffer: seq<T>, innerLength: nat, d: Direction): (line: seq<T>)
    requires |buffer| == Sq(innerLength)
    ensures |line| == innerLength
    ensures forall k :: 0 <= k < innerLength ==>
              line[k] == buffer[CellIndex(innerLength, EdgeCell(innerLength, d, k).0, EdgeCell(innerLength, d, k).1)]
  {
    seq(innerLength, k requires 0 <= k < innerLength =>
      EdgeCellInterior(innerLength, d, k);
      var (x, y) := EdgeCell(innerLength, d, k);
      buffer[CellIndex(innerLength, x, y)])
  }

  /** One expansion of the copy macro: snapshot side `d` of `front` if its neighbour exists. */
  function CopyEdge<T>(w: Workspace<T>, d: Direction): (r: Workspace<T>)
    requires w.Valid()
    ensures r.Valid()
    ensures r.innerEdge.Get(d) == if w.neigh.Has(d) then Some(EdgeLine(w.front, w.innerLength, d)) else w.innerEdge.Get(d)
    ensures forall e :: e != d ==> r.innerEdge.Get(e) == w.innerEdge.Get(e)
    ensures r.innerLength == w.innerLength && r.borderCond == w.borderCond && r.neigh == w.neigh
    ensures r.front == w.front && r.back == w.back && r.outerEdge == w.outerEdge
  {
    if w.neigh.Get(d) != N_INVALID then w.(innerEdge := w.innerEdge.Set(d, Some(EdgeLine(w.front, w.innerLength, d))))
    else w
  }

  /**
   * `copyInnerEdgesToBuffers`: for every existing neighbour, the inner edge
   * facing it becomes the current side of the front buffer.
   */
  function CopyInnerEdgesToBuffers<T>(w: Workspace<T>): (r: Workspace<T>)
    requires w.Valid()
    ensures r.Valid()
    ensures forall d :: w.neigh.Has(d) ==> r.innerEdge.Get(d) == Some(EdgeLine(w.front, w.innerLength, d))
    ensures forall d :: !w.neigh.Has(d) ==> r.innerEdge.Get(d) == w.innerEdge.Get(d)
    ensures r.innerLength == w.innerLength && r.borderCond == w.borderCond && r.neigh == w.neigh
    ensures r.front == w.front && r.back == w.back && r.outerEdge == w.outerEdge
  {
    CopyEdge(CopyEdge(CopyEdge(CopyEdge(w, Top), Bottom), Left), Right)
  }

  /**
   * Completion of the posted receives: every existing neighbour's line has
   * landed in the outer edge facing it. Which values arrive is decided by the
   * neighbours and the message-passing runtime, so they are a parameter.
   */
  function Receive<T>(w: Workspace<T>, incoming: Edges<T>): (r: Workspace<T>)
    requires w.Valid() && EdgesShaped(incoming, w.neigh, w.innerLength)
    ensures r.Valid()
    ensures forall d :: w.neigh.Has(d) ==> r.outerEdge.Get(d) == incoming.Get(d)
    ensures r.innerLength == w.innerLength && r.borderCond == w.borderCond && r.neigh == w.neigh
    ensures r.front == w.front && r.back == w.back && r.innerEdge == w.innerEdge
  {
    w.(outerEdge := incoming)
  }

  /** The directions, in enum order, among `ds` in which `n` has a neighbour. */
  function Present(n: Neighbours, ds: seq<Direction>): (r: seq<Direction>)
    ensures |r| <= |ds|
  {
    if ds == [] then []
    else Present(n, ds[..|ds| - 1]) + (if n.Has(ds[|ds| - 1]) then [ds[|ds| - 1]] else [])
  }

  /** A direction is visited exactly when it is among `ds` and has a neighbour. */
  lemma {:induction false} PresentMembers(n: Neighbours, ds: seq<Direction>)
    ensures forall d :: d in Present(n, ds) <==> d in ds && n.Has(d)
  {
    if ds != [] {
      var init, last := ds[..|ds| - 1], ds[|ds| - 1];
      PresentMembers(n, init);
      assert ds == init + [last];
    }
  }

  /** Each existing neighbour is visited exactly once, so the count is the neighbour count. */
  lemma PresentCount(n: Neighbours)
    ensures |Present(n, Directions)| == NeighbourCount(n)
  {
    var one, two, three := [Left], [Left, Top], [Left, Top, Right];
    assert one[..0] == [];
    assert two[..1] == one;
    assert three[..2] == two;
    assert Directions[..3] == three;
    assert |Present(n, one)| == (if n.Has(Left) then 1 else 0);
    assert |Present(n, two)| == |Present(n, one)| + (if n.Has(Top) then 1 else 0);
    assert |Present(n, three)| == |Present(n, two)| + (if n.Has(Right) then 1 else 0);
  }

  /**
   * Slots 2k and 2k+1 of `c` hold the exchange with the k-th direction of
   * `ds`: the side of `front` facing it goes out, the reply lands in its outer edge.
   */
  ghost predicate PostedInOrder<T>(c: Comms<T>, w: Workspace<T>, ds: seq<Direction>)
    requires w.Valid() && 2 * |ds| <= |c.rq|
  {
    forall k :: 0 <= k < |ds| ==>
      && c.rq[2 * k] == Isend(w.neigh.Get(ds[k]), EdgeLine(w.front, w.innerLength, ds[k]))
      && c.rq[2 * k + 1] == Irecv(ds[k])
  }

  /** Posting the exchange for one more direction extends the ordered list of pairs. */
  lemma PostedInOrderExtend<T>(before: Comms<T>, after: Comms<T>, w: Workspace<T>, ds: seq<Direction>, d: Direction)
    requires w.Valid() && 2 * |ds| + 2 <= |before.rq| == |after.rq|
    requires PostedInOrder(before, w, ds)
    requires forall i :: 0 <= i < 2 * |ds| ==> after.rq[i] == before.rq[i]
    requires after.rq[2 * |ds|] == Isend(w.neigh.Get(d), EdgeLine(w.front, w.innerLength, d))
    requires after.rq[2 * |ds| + 1] == Irecv(d)
    ensures PostedInOrder(after, w, ds + [d])
  {
    var ds' := ds + [d];
    forall k | 0 <= k < |ds'|
      ensures after.rq[2 * k] == Isend(w.neigh.Get(ds'[k]), EdgeLine(w.front, w.innerLength, ds'[k]))
      ensures after.rq[2 * k + 1] == Irecv(ds'[k])
    {
      if k < |ds| {
        assert after.rq[2 * k] == before.rq[2 * k];
        assert after.rq[2 * k + 1] == before.rq[2 * k + 1];
      }
    }
  }

  /** One more direction of the enum order adds itself exactly when the neighbour exists. */
  lemma PresentStep(n: Neighbours, i: nat)
    requires i < |Directions|
    ensures Present(n, Directions[..i + 1])
            == Present(n, Directions[..i]) + (if n.Has(Directions[i]) then [Directions[i]] else [])
  {
    assert Directions[..i + 1][..i] == Directions[..i];
  }

  /** What the snapshot `snap` of `w` offers the posting loop: the line of each existing neighbour. */
  ghost predicate SnapshotOf<T>(snap: Workspace<T>, w: Workspace<T>)
    requires w.Valid()
  {
    && snap.neigh == w.neigh && snap.innerLength == w.innerLength
    && forall d :: w.neigh.Has(d) ==> snap.innerEdge.Get(d) == Some(EdgeLine(w.front, w.innerLength, d))
  }

  /** The invariant of the posting loop after the first `i` directions of the enum order. */
  ghost predicate PostedUpTo<T>(posted: Comms<T>, w: Workspace<T>, i: nat)
    requires w.Valid() && i <= |Directions|
  {
    && posted.Valid() && posted.innerLength == w.innerLength
    && posted.nextId == 2 * |Present(w.neigh, Directions[..i])|
    && |Present(w.neigh, Directions[..i])| <= i
    && PostedInOrder(posted, w, Present(w.neigh, Directions[..i]))
  }

  /** One iteration of the posting loop: exchange with the `i`-th direction if it has a neighbour. */
  method PostNext<T>(w: Workspace<T>, snap: Workspace<T>, posted: Comms<T>, i: nat) returns (next: Comms<T>)
    requires w.Valid() && SnapshotOf(snap, w) && i < |Directions|
    requires PostedUpTo(posted, w, i)
    ensures PostedUpTo(next, w, i + 1)
  {
    ghost var ds := Present(w.neigh, Directions[..i]);
    PresentStep(w.neigh, i);
    var d := Directions[i];
    if snap.neigh.Get(d) != N_INVALID {
      var line := snap.innerEdge.Get(d).value;
      assert line[..snap.innerLength] == line;
      next := Post(posted, snap.neigh.Get(d), line, d);
      PostedInOrderExtend(posted, next, w, ds, d);
    } else {
      next := posted;
    }
  }

  /**
   * The posting loop of `swap`: one exchange per existing neighbour of the
   * snapshot `snap`, in enum order, into a freshly reset channel.
   */
  method PostAll<T>(w: Workspace<T>, snap: Workspace<T>, c: Comms<T>) returns (posted: Comms<T>)
    requires w.Valid() && SnapshotOf(snap, w)
    requires c.Valid() && c.nextId == 0 && c.innerLength == w.innerLength
    ensures posted.Valid() && posted.innerLength == c.innerLength
    ensures posted.nextId == 2 * |Present(w.neigh, Directions)|
    ensures PostedInOrder(posted, w, Present(w.neigh, Directions))
  {
    posted := c;
    assert Directions[..0] == [];
    for i := 0 to 4
      invariant PostedUpTo(posted, w, i)
    {
      posted := PostNext(w, snap, posted, i);
    }
    assert Directions[..4] == Directions;
  }

  /**
   * `swap`: snapshot the edges, reset the channel, post one exchange per
   * existing neighbour in enum order, wait, and flip the buffers. `incoming`
   * stands for what the wait leaves in the outer edges. `posted` is the
   * channel as the posting loop leaves it, before `wait` releases the
   * completed requests.
   */
  method Swap<T>(w: Workspace<T>, c: Comms<T>, incoming: Edges<T>) returns (r: Workspace<T>, posted: Comms<T>)
    requires w.Valid() && c.innerLength == w.innerLength
    requires EdgesShaped(incoming, w.neigh, w.innerLength)
    ensures posted.Valid() && posted.innerLength == c.innerLength
    ensures posted.nextId == 2 * NeighbourCount(w.neigh) <= RQ_COUNT
    ensures PostedInOrder(posted, w, Present(w.neigh, Directions))
    ensures r == SwapBuffers(Receive(CopyInnerEdgesToBuffers(w), incoming))
  {
    var snap := CopyInnerEdgesToBuffers(w);
    posted := PostAll(w, snap, Reset(c));
    PresentCount(w.neigh);
    r := SwapBuffers(Receive(snap, incoming));
  }

  /** A read one step past side `d` is a side read, never a corner. */
  lemma OutsideIsSideRead<T>(w: Workspace<T>, d: Direction, k: int)
    requires w.Valid() && 0 <= k < w.innerLength
    ensures Resolvable(w, Outside(w.innerLength, d, k).0, Outside(w.innerLength, d, k).1)
    ensures !IsCorner(w.innerLength, Outside(w.innerLength, d, k).0, Outside(w.innerLength, d, k).1)
    ensures GetElb(w, Outside(w.innerLength, d, k).0, Outside(w.innerLength, d, k).1) == Success(SideValue(w, d, k))
  {
  }

  /**
   * A tile whose outer edge towards `d` holds the facing side of `b`'s back
   * buffer reads, one step past that side, what `b` reads at the adjacent cell.
   */
  lemma SeamRead<T>(a: Workspace<T>, b: Workspace<T>, d: Direction, k: int)
    requires a.Valid() && b.Valid() && a.innerLength == b.innerLength && 0 <= k < a.innerLength
    requires a.neigh.Has(d) && a.outerEdge.Get(d) == Some(EdgeLine(b.back, b.innerLength, Opposite(d)))
    ensures var (x, y) := Outside(a.innerLength, d, k);
            var (cx, cy) := EdgeCell(b.innerLength, Opposite(d), k);
            Resolvable(a, x, y) && Resolvable(b, cx, cy) && GetElb(a, x, y) == GetElb(b, cx, cy)
  {
    var L := a.innerLength;
    OutsideIsSideRead(a, d, k);
    var (cx, cy) := EdgeCell(L, Opposite(d), k);
    EdgeCellInterior(L, Opposite(d), k);
    assert GetElb(b, cx, cy) == Success(CellAt(b.back, L, cx, cy));
  }

  /** A write goes to `front`, so no read sees it before the buffers are swapped. */
  lemma WriteInvisibleBeforeSwap<T>(w: Workspace<T>, x: int, y: int, value: T, x': int, y': int)
    requires w.Valid() && InBuffer(w.innerLength, x, y)
    requires Resolvable(w, x', y')
    ensures GetElb(SetElf(w, x, y, value), x', y') == GetElb(w, x', y')
  {
  }

  /**
   * After the swap a read of the written cell returns the written value, and
   * a read of any other interior cell returns what that cell held in `front`.
   */
  lemma {:induction false} WriteVisibleAfterSwap<T>(w: Workspace<T>, x: int, y: int, value: T, x': int, y': int)
    requires w.Valid() && Interior(w.innerLength, x, y) && Interior(w.innerLength, x', y')
    ensures GetElb(SwapBuffers(SetElf(w, x, y, value)), x, y) == Success(value)
    ensures (x', y') != (x, y) ==>
              GetElb(SwapBuffers(SetElf(w, x, y, value)), x', y') == GetElb(SwapBuffers(w), x', y')
  {
    var L := w.innerLength;
    InBufferIndex(L, x, y);
    InBufferIndex(L, x', y');
    if (x', y') != (x, y) && CellIndex(L, x', y') == CellIndex(L, x, y) {
      RowMajorInjective(L, x, y, x', y');
    }
  }

  /** Swapping twice restores the workspace. */
  lemma SwapBuffersInvolution<T>(w: Workspace<T>)
    requires w.Valid()
    ensures SwapBuffers(SwapBuffers(w)) == w
  {
  }

  /**
   * Where the code's coordinates and its documented 1-based range part ways:
   * coordinate innerLength is neither interior nor virtual. On the x axis,
   * paired with an interior y, it indexes past the end of `back`; on the y
   * axis, for x below innerLength-1, it reads the first cell of the next row.
   */
  lemma {:induction false} FarCoordinateUnhandled<T>(w: Workspace<T>, x: int)
    requires w.Valid() && 0 <= x < w.innerLength - 1
    ensures forall y :: 0 <= y < w.innerLength ==> !Resolvable(w, w.innerLength, y)
    ensures Resolvable(w, x, w.innerLength) && GetElb(w, x, w.innerLength) == GetElb(w, x + 1, 0)
  {
    var L := w.innerLength;
    forall y | 0 <= y < L
      ensures !Resolvable(w, L, y)
    {
      assert CellIndex(L, L, y) == Sq(L) + y;
    }
    assert CellIndex(L, x, L) == CellIndex(L, x + 1, 0) by {
      assert (x + 1) * L == x * L + L;
    }
    InBufferIndex(L, x + 1, 0);
    assert CellAt(w.back, L, x, L) == CellAt(w.back, L, x + 1, 0);
  }
}

=== FILE: wrappers.dfy ===
/** Failure-carrying results for the operations of the solver core that can throw. */
module Wrappers {

  /** A value that may be absent: the model of a buffer pointer that may be null. */
  datatype Option<+T> = None | Some(value: T)

  /** Either a computed value or the error the solver's C++ code would have thrown. */
  datatype Result<+R, +E> = Success(value: R) | Failure(error: E)
}
